=== FILE: README.md ===
# FlowMetrix collector core, modelled in Dafny

FlowMetrix polls Jenkins for finished pipeline builds and republishes them as
Prometheus metrics. This project models the sequential logic of its
`JenkinsCollector`:

- **Branch resolution** (`get_branch_name`). A build's heterogeneous `actions`
  are turned into a branch name. The first scan checks, action by action, a
  `lastBuiltRevision` block with a `branch` list, then a parameter named
  `branch` or `git_branch` in any letter case. The second scan takes the first
  Git tag action. Otherwise the branch is `unknown`. Module `Branch`. Module `Text`
  gives the Python `str.replace` and `str.lower` it calls. It also defines
  `split` and `join`, which the collector does not call. They are a reference
  definition that characterises the replace-all scan (`ReplaceIsJoinOfSplit`).
- **Metric emission for one build** (the part of `process_build` after the
  fetch). The Prometheus calls become an ordered list of abstract events:
  - one build counter increment labelled `(job, status, branch)`;
  - one build-duration observation;
  - one stage-duration observation per stage, in order;
  - the last-processed gauge set to the build number.

  Defaults are applied as the source applies them. Durations stay in integer
  milliseconds. Module `Emission`.
- **Watermarks** (`_initialize_state`, `collect`). This is a per-job store that
  reads like a `defaultdict(int)`. `get_job_info` is a partial map from job name
  to job info: an absent name stands for any exception. The build-description
  fetch is an oracle `(job, number) -> Fetched(record) | FetchFailed`. One call
  of `collect` is the pure function `Cycle`. `Collect` and `RunBatchLoop`
  restate it with the source's loops and `break`. Module `Watermark`; the
  properties are in `WatermarkProperties`.

Three behaviours of the code are easy to misread. The model follows the code:

- The revision check and the parameter check are interleaved per action. So a
  branch parameter in an earlier action beats a revision block in a later
  action (`EarlierParameterBeatsLaterRevision`). Revision blocks are not all
  consulted before any parameter.
- A JSON `null` in `lastCompletedBuild` makes `.get('number', 0)` raise
  (`BuildRef.Null`). At initialisation the job then stays at 0; in a cycle the
  job is skipped. A null `lastBuild` raises only at initialisation, and only
  on the fallback, which is taken when the completed build's number reads as
  0. `collect` never reads `lastBuild` (`ReportedLast`).
- An empty `branch` list in a revision, or an empty `tags` list in a tag action,
  raises `IndexError`. That fails the whole build's processing, so the job's
  batch stops there (`BranchError`).

## Model

| member | source | states |
|---|---|---|
| Text.ReplaceIsJoinOfSplit | flowmetrix.py:70 | the replace-all scan used to strip prefixes satisfies Python's identity `s.replace(p, r) == r.join(s.split(p))` |
| Text.ReplaceAbsent | flowmetrix.py:70 | text in which the pattern does not occur comes back unchanged from replace |
| Text.ReplaceLeading | flowmetrix.py:70 | a leading occurrence is replaced and the scan resumes right after it |
| BranchProperties.StripRefsInvertsPrefix | flowmetrix.py:70 | a name without `refs/` in it comes back unchanged from behind `refs/heads/` or `refs/remotes/origin/` once both prefixes are removed |
| BranchProperties.RevisionHeadsMain | flowmetrix.py:67-70 | the revision branch `refs/heads/main` resolves to `main` |
| Branch.ParamBranch | flowmetrix.py:73-75 | finds a parameter exactly when one is named `branch`/`git_branch` case-insensitively; returns the value of the first such parameter, `unknown` when it has none |
| Branch.FirstPassOn | flowmetrix.py:67-75 | one action decides the first pass exactly when it has a revision `branch` list or a branch parameter; the revision block is checked first |
| Branch.FirstPass | flowmetrix.py:66-75 | finds nothing exactly when no action decides; otherwise returns the decision of the first action that decides |
| Branch.TagPass | flowmetrix.py:77-79 | finds nothing exactly when no action has the Git tag `_class`; otherwise returns the first tag action's first tag name; a missing `tags` key gives `unknown`, an empty list an error |
| Branch.ResolveBranch | flowmetrix.py:65-81 | the first deciding action wins; only if none decides does the first tag action; with neither the result is exactly `unknown` |
| BranchProperties.RevisionBranchWins | flowmetrix.py:67-70 | when the first deciding action has a non-empty revision branch list, the branch is its first entry's name (default `unknown`) with the prefixes stripped |
| BranchProperties.GitBranchParameter | flowmetrix.py:72-75 | a parameter named `Git_Branch` with value `release/2.0` resolves to `release/2.0` |
| BranchProperties.EarlierParameterBeatsLaterRevision | flowmetrix.py:66-75 | a branch parameter in the first action decides, whatever revision blocks follow |
| BranchProperties.AppendAfterHit | flowmetrix.py:66-75 | actions after a deciding action never change the branch |
| BranchProperties.PrependSkipped | flowmetrix.py:66-79 | actions that do not decide the first pass, tag actions included, cannot pre-empt a later deciding action |
| BranchProperties.NothingRecognisedIsUnknown | flowmetrix.py:81 | with no revision branch, branch parameter or tag action, the branch is `unknown` |
| Emission.StageEvents | flowmetrix.py:147-157 | one observation per stage in stage order, with `Unnamed Stage`, `UNKNOWN` and 0 as defaults |
| Emission.EmitBuild | flowmetrix.py:140-159 | fails exactly when branch resolution fails, and then emits nothing; otherwise emits the counter increment `(job, status or UNKNOWN, branch)`, the build duration (0 if absent), one stage observation per stage and finally the gauge set to the build number |
| Emission.EmitBuildOnce | flowmetrix.py:144-159 | a processed build is counted once and timed once, and sets only its own job's gauge, once, to its number |
| Emission.EmitBuildShape | flowmetrix.py:144-159 | every event carries the job label; the only gauge event is the last one |
| Watermark.InitFrom | flowmetrix.py:49-63 | after initialisation a listed job holds the value its job info yields, or its previous value when the lookup or a read raises; unlisted jobs are untouched |
| WatermarkProperties.InitialisationRules | flowmetrix.py:46-63 | a job starts at its last completed build number, or at its last build number when that is 0 or absent; a lookup that fails, a null last completed build, a last build that is also 0, absent or null, or an unlisted job gives 0 |
| Watermark.RunBatch | flowmetrix.py:98-108 | attempts the builds `w+1, w+2, ...` consecutively; the new watermark is `w` plus the length of the leading run of successes, never below `w`, never above the last completed build; the first failure is the last build attempted |
| Watermark.RunBatchLoop | flowmetrix.py:98-108 | the source's `for`/`break` loop computes the same batch as `RunBatch` |
| Watermark.Collect | flowmetrix.py:83-117 | the source's loop over jobs computes the same store, attempts and events as `Cycle` |
| WatermarkProperties.BatchEvents | flowmetrix.py:98-108 | a batch emits exactly one counter increment and one duration observation per build the watermark advanced over; its job's gauge is set to exactly `w+1 .. new watermark` in order |
| WatermarkProperties.BatchGauges | flowmetrix.py:98-108 | a batch's events carry its job; its gauge values lie above the old watermark, at or below the new one, and strictly increase |
| WatermarkProperties.BatchAllSucceed | flowmetrix.py:98-101 | when every new build succeeds, the watermark and the final gauge reach the last completed build and each of the k builds is counted and timed once |
| WatermarkProperties.BatchStopsAtFailure | flowmetrix.py:98-108 | a failure at build f leaves the watermark at f-1, and nothing after f is attempted |
| WatermarkProperties.BatchDependsOnOutcomesOnly | flowmetrix.py:98-108 | a batch is determined by the outcomes of its own job's builds |
| WatermarkProperties.CollectJobFacts | flowmetrix.py:86-117 | one job's iteration changes only that job's watermark, never lowers it and never lifts it past the reported last completed build; it only appends attempts and events for that job above its old watermark; with nothing new or a failed lookup it changes nothing |
| WatermarkProperties.CycleMonotone | flowmetrix.py:86-108 | over a cycle no watermark decreases; each one stays put or ends at most at its job's reported last completed build; unlisted jobs are untouched |
| WatermarkProperties.CycleNothingNew | flowmetrix.py:88-94 | a job whose reported last completed build is at or below its watermark, or whose lookup raises, keeps its watermark and gets no attempts and no metrics |
| WatermarkProperties.CycleAttemptsAboveWatermark | flowmetrix.py:98 | no build at or below a job's watermark at the start of the cycle is attempted |
| WatermarkProperties.CycleIsolation | flowmetrix.py:86-117 | a job's new watermark depends only on its own lookup, its own build outcomes and its own old watermark; other jobs' failures leave it as if they had not happened |
| WatermarkProperties.CollectJobKeepsGaugeInvariant | flowmetrix.py:98-108 | each job's gauge values keep strictly increasing and stay at or below its watermark |
| WatermarkProperties.CycleKeepsGaugeInvariant | flowmetrix.py:86-117 | a whole cycle keeps the gauge invariant |
| WatermarkProperties.RunKeepsGaugeInvariant | flowmetrix.py:197-199 | successive cycles keep the gauge invariant |
| WatermarkProperties.RunProcessesEachBuildAtMostOnce | flowmetrix.py:46-117 | from initialisation through any number of cycles, a job's last-processed gauge values strictly increase, so the gauge is never set twice for one build, and none passes the job's watermark |
| WatermarkProperties.RetriedLater | flowmetrix.py:88-98 | a job at watermark 0 is retried on every cycle: cycles whose lookup fails or reports no completed build leave it alone, and the first cycle whose lookup reports one attempts its build 1 |
| WatermarkProperties.MissingJobIsRetried | flowmetrix.py:60-61 | a job missing at startup starts at 0, wherever it sits in the job list; in whichever later cycle a lookup first reports completed builds for it, its build 1 is attempted |
| WatermarkProperties.CycleAttemptsNextBuild | flowmetrix.py:86-100 | in a cycle, every listed job with a reported last completed build above its watermark has the build right after its watermark attempted, whatever the jobs before it do |
| WatermarkProperties.TwoJobScenario | flowmetrix.py:86-108 | with `A` at 5 (last completed 7) and `B` at 10 (last completed 10), one cycle attempts exactly `A` 6 and `A` 7 and ends with `A` = 7, `B` = 10 |

## Left out

- Environment configuration, the credential check, `main` and its `exit(1)` paths (flowmetrix.py:10-15, 163-194): process start-up and OS interaction.
- The Prometheus metric objects, their bucket boundaries and `start_http_server` (flowmetrix.py:18-39, 190): foreign library calls. They are replaced by the `Event` list.
- The HTTP part of `process_build` (flowmetrix.py:125-137): URL construction, `jenkins_request`, `raise_for_status` and `.json()`. It is the `Fetch` oracle.
- `get_job_info` (flowmetrix.py:53, 88) is the `lookup` map. Which exception type it raises is not modelled: every branch of `collect` handles them alike.
- The distinction between network and other exceptions in `collect` (flowmetrix.py:102-117): both log and stop alike, so both are one failure outcome.
- The conversion from milliseconds to seconds (flowmetrix.py:142, 150): floating point. Durations stay in integer milliseconds.
- Logging, the endless `while True` loop and `time.sleep` (flowmetrix.py:197-203). `Run` models a finite sequence of cycles only.
- `str.lower()` is modelled for ASCII letters only. No other character lower-cases into the letters of `branch` or `git_branch`, so matching is unaffected.
- JSON values of unexpected types are not modelled, for example a non-object action, a null duration or a non-string parameter value. The typed records rule them out; only the null build references of the job info are modelled. An absent `actions` or `stages` key reads as an empty list, as `.get(key, [])` does.
- A build whose stage data raise part-way is not modelled. Examples are `"stages": null` or a stage with a null `durationMillis`. In the source, `process_build` has then already incremented the counter and observed the build duration (flowmetrix.py:144-145). `collect` stops before the gauge is set (flowmetrix.py:105-108), so that build is counted and timed again on every later cycle. The typed records exclude this input, and `EmitBuild` is all-or-nothing. Only the gauge half of "at most once" holds in the source for every input, because the gauge is set last (flowmetrix.py:159).
- The keys a `defaultdict` inserts when it is read are not modelled: the store is only observed through `Get`, which reads 0 for a missing job.

=== FILE: branch.dfy ===
/**
 Branch resolution for one build: `JenkinsCollector.get_branch_name`.

 A build's `actions` are heterogeneous JSON objects. Each one is modelled as
 the record of the keys the resolver looks at; a key that is absent from the
 object is `None`, and an action holding none of them is an unrecognised one.
 */
module Branch {
  import opened Results
  import opened Text

  /** The fallback branch name. */
  const Unknown := "unknown"
  /** Remote-tracking prefix removed from a revision's branch name first. */
  const RemotePrefix := "refs/remotes/origin/"
  /** Local-head prefix removed from a revision's branch name second. */
  const HeadsPrefix := "refs/heads/"
  /** The `_class` of a Git tag action. */
  const GitTagActionClass := "jenkins.plugins.git.GitTagAction"

  /** One entry of a revision's `branch` list. */
  datatype BranchEntry = BranchEntry(name: Option<string>)

  /** A `lastBuiltRevision` object; `branch` is `None` when the key is absent. */
  datatype Revision = Revision(branch: Option<seq<BranchEntry>>)

  /** One build parameter. */
  datatype Param = Param(name: Option<string>, value: Option<string>)

  /** One entry of a tag action's `tags` list. */
  datatype Tag = Tag(name: Option<string>)

  /** One action object of a build record. */
  datatype Action = Action(
    lastBuiltRevision: Option<Revision>,
    parameters: Option<seq<Param>>,
    className: Option<string>,
    tags: Option<seq<Tag>>)

  /** Indexing an empty list raises `IndexError`; these are its two sites. */
  datatype BranchError = EmptyBranchList | EmptyTagList

  /** A revision branch name with every remote prefix, then every head prefix, removed. */
  function StripRefs(name: string): string {
    ReplaceAll(ReplaceAll(name, RemotePrefix, ""), HeadsPrefix, "")
  }

  /** A parameter name that, lower-cased, is `branch` or `git_branch`. */
  predicate IsBranchParamName(name: string) {
    Lower(name) == "branch" || Lower(name) == "git_branch"
  }

  /** A parameter the first pass accepts; a missing name reads as the empty string. */
  predicate IsBranchParam(p: Param) {
    IsBranchParamName(p.name.ValueOr(""))
  }

  /** The value of the first branch parameter in `ps`, defaulting to `unknown`. */
  function ParamBranch(ps: seq<Param>): (r: Option<string>)
    ensures r.None? <==> forall i :: 0 <= i < |ps| ==> !IsBranchParam(ps[i])
    ensures r.Some? ==>
      exists i :: 0 <= i < |ps| && IsBranchParam(ps[i])
        && (forall j :: 0 <= j < i ==> !IsBranchParam(ps[j]))
        && r.value == ps[i].value.ValueOr(Unknown)
  {
    if |ps| == 0 then None
    else if IsBranchParam(ps[0]) then Some(ps[0].value.ValueOr(Unknown))
    else
      var r := ParamBranch(ps[1..]);
      assert forall i :: 1 <= i < |ps| ==> ps[i] == ps[1..][i - 1];
      r
  }

  /** The branch of a revision whose `branch` list is present. */
  function RevisionBranch(entries: seq<BranchEntry>): Result<string, BranchError> {
    if |entries| == 0 then Failure(EmptyBranchList)
    else Success(StripRefs(entries[0].name.ValueOr(Unknown)))
  }

  /** The revision of `a` carries a `branch` key. */
  predicate HasRevisionBranch(a: Action) {
    a.lastBuiltRevision.Some? && a.lastBuiltRevision.value.branch.Some?
  }

  /** `a` carries a parameter list with a branch parameter in it. */
  predicate HasBranchParam(a: Action) {
    a.parameters.Some? && exists i :: 0 <= i < |a.parameters.value| && IsBranchParam(a.parameters.value[i])
  }

  /**
   What the first pass decides on one action, or `None` when it moves on:
   the revision block is consulted before the parameters of the same action.
   */
  function FirstPassOn(a: Action): (r: Option<Result<string, BranchError>>)
    ensures r.Some? <==> HasRevisionBranch(a) || HasBranchParam(a)
    ensures HasRevisionBranch(a) ==> r == Some(RevisionBranch(a.lastBuiltRevision.value.branch.value))
    ensures !HasRevisionBranch(a) && HasBranchParam(a) ==>
      r == Some(Success(ParamBranch(a.parameters.value).value))
  {
    if a.lastBuiltRevision.Some? && a.lastBuiltRevision.value.branch.Some? then
      Some(RevisionBranch(a.lastBuiltRevision.value.branch.value))
    else if a.parameters.Some? then
      match ParamBranch(a.parameters.value)
      case Some(v) => Some(Success(v))
      case None => None
    else None
  }

  /** The first action on which the first pass decides. */
  ghost predicate FirstHitAt(actions: seq<Action>, i: int) {
    0 <= i < |actions| && FirstPassOn(actions[i]).Some?
    && forall j :: 0 <= j < i ==> FirstPassOn(actions[j]).None?
  }

  /** The first loop over the actions. */
  function FirstPass(actions: seq<Action>): (r: Option<Result<string, BranchError>>)
    ensures r.None? <==> forall i :: 0 <= i < |actions| ==> FirstPassOn(actions[i]).None?
    ensures r.Some? ==> exists i :: FirstHitAt(actions, i) && r == FirstPassOn(actions[i])
  {
    if |actions| == 0 then None
    else if FirstPassOn(actions[0]).Some? then
      assert FirstHitAt(actions, 0);
      FirstPassOn(actions[0])
    else
      var r := FirstPass(actions[1..]);
      assert forall i :: 1 <= i < |actions| ==> actions[i] == actions[1..][i - 1];
      assert r.Some? ==> exists i :: FirstHitAt(actions, i) && r == FirstPassOn(actions[i]) by {
        if r.Some? {
          var k :| FirstHitAt(actions[1..], k) && r == FirstPassOn(actions[1..][k]);
          assert FirstHitAt(actions, k + 1);
        }
      }
      r
  }

  /** An action whose `_class` is the Git tag action. */
  predicate IsTagAction(a: Action) {
    a.className == Some(GitTagActionClass)
  }

  /** The branch a tag action supplies: its first tag's name; a missing `tags` key reads as `[{}]`. */
  function TagBranch(a: Action): Result<string, BranchError> {
    match a.tags
    case None => Success(Unknown)
    case Some(ts) => if |ts| == 0 then Failure(EmptyTagList) else Success(ts[0].name.ValueOr(Unknown))
  }

  /** The first tag action of the list. */
  ghost predicate FirstTagAt(actions: seq<Action>, i: int) {
    0 <= i < |actions| && IsTagAction(actions[i])
    && forall j :: 0 <= j < i ==> !IsTagAction(actions[j])
  }

  /** The second loop over the actions. */
  function TagPass(actions: seq<Action>): (r: Option<Result<string, BranchError>>)
    ensures r.None? <==> forall i :: 0 <= i < |actions| ==> !IsTagAction(actions[i])
    ensures r.Some? ==> exists i :: FirstTagAt(actions, i) && r == Some(TagBranch(actions[i]))
  {
    if |actions| == 0 then None
    else if IsTagAction(actions[0]) then
      assert FirstTagAt(actions, 0);
      Some(TagBranch(actions[0]))
    else
      var r := TagPass(actions[1..]);
      assert forall i :: 1 <= i < |actions| ==> actions[i] == actions[1..][i - 1];
      assert r.Some? ==> exists i :: FirstTagAt(actions, i) && r == Some(TagBranch(actions[i])) by {
        if r.Some? {
          var k :| FirstTagAt(actions[1..], k) && r == Some(TagBranch(actions[1..][k]));
          assert FirstTagAt(actions, k + 1);
        }
      }
      r
  }

  /**
   `get_branch_name`: the first action with a revision branch or a branch
   parameter decides; failing that the first tag action; failing that `unknown`.
   */
  function ResolveBranch(actions: seq<Action>): (r: Result<string, BranchError>)
    ensures forall i :: FirstHitAt(actions, i) ==> r == FirstPassOn(actions[i]).value
    ensures (forall i :: 0 <= i < |actions| ==> FirstPassOn(actions[i]).None?) ==>
      forall i :: FirstTagAt(actions, i) ==> r == TagBranch(actions[i])
    ensures (forall i :: 0 <= i < |actions| ==> FirstPassOn(actions[i]).None? && !IsTagAction(actions[i])) ==>
      r == Success(Unknown)
  {
    FirstHitUnique(actions);
    FirstTagUnique(actions);
    match FirstPass(actions)
    case Some(b) => b
    case None =>
      match TagPass(actions)
      case Some(b) => b
      case None => Success(Unknown)
  }

  /** At most one index is the first hit. */
  lemma FirstHitUnique(actions: seq<Action>)
    ensures forall i, j :: FirstHitAt(actions, i) && FirstHitAt(actions, j) ==> i == j
  {
  }

  /** At most one index is the first tag action. */
  lemma FirstTagUnique(actions: seq<Action>)
    ensures forall i, j :: FirstTagAt(actions, i) && FirstTagAt(actions, j) ==> i == j
  {
  }
}

module BranchProperties {
  import opened Results
  import opened Text
  import opened Branch

  /** Every occurrence of a pattern begins with an occurrence of each of its prefixes. */
  lemma OccursPrefix(s: string, p: string, q: string)
    requires q <= p
    ensures Occurs(s, p) ==> Occurs(s, q)
  {
    if Occurs(s, p) {
      var i :| 0 <= i <= |s| && OccursAt(s, p, i);
      assert s[i..i + |q|] == s[i..i + |p|][..|q|];
      assert OccursAt(s, q, i);
    }
  }

  /** An occurrence fixes every character it covers. */
  lemma OccursAtChar(s: string, p: string, i: int, k: int)
    requires 0 <= i && 0 <= k < |p| && i + |p| <= |s|
    ensures OccursAt(s, p, i) ==> s[i + k] == p[k]
  {
    assert s[i..i + |p|][k] == s[i + k];
  }

  /** The head prefix does not contain the remote prefix, even straddling into what follows. */
  lemma RemoteNotInHeads(t: string)
    requires !Occurs(t, "refs/")
    ensures !Occurs(HeadsPrefix + t, RemotePrefix)
  {
    var s := HeadsPrefix + t;
    forall i | 0 <= i <= |s|
      ensures !OccursAt(s, RemotePrefix, i)
    {
      if i + |RemotePrefix| <= |s| {
        if i < |HeadsPrefix| {
          var k := if i == 0 then 5 else 0;
          OccursAtChar(s, RemotePrefix, i, k);
          assert s[i + k] == HeadsPrefix[i + k];
          assert HeadsPrefix[i + k] != RemotePrefix[k];
        } else {
          var j := i - |HeadsPrefix|;
          assert s[i..i + |RemotePrefix|] == t[j..j + |RemotePrefix|];
          assert OccursAt(s, RemotePrefix, i) ==> OccursAt(t, RemotePrefix, j);
          OccursPrefix(t, RemotePrefix, "refs/");
        }
      }
    }
  }

  /**
   Stripping inverts prefixing: a branch name without any `refs/` in it comes
   back unchanged from behind either prefix.
   */
  lemma StripRefsInvertsPrefix(t: string)
    requires !Occurs(t, "refs/")
    ensures StripRefs(HeadsPrefix + t) == t
    ensures StripRefs(RemotePrefix + t) == t
  {
    OccursPrefix(t, HeadsPrefix, "refs/");
    OccursPrefix(t, RemotePrefix, "refs/");
    RemoteNotInHeads(t);
    ReplaceAbsent(HeadsPrefix + t, RemotePrefix, "");
    ReplaceLeading(HeadsPrefix, t, "");
    ReplaceAbsent(t, HeadsPrefix, "");
    ReplaceLeading(RemotePrefix, t, "");
    ReplaceAbsent(t, RemotePrefix, "");
  }

  /** The revision branch `refs/heads/main` resolves to `main`. */
  lemma RevisionHeadsMain()
    ensures ResolveBranch([Action(Some(Revision(Some([BranchEntry(Some("refs/heads/main"))]))), None, None, None)])
      == Success("main")
  {
    assert !Occurs("main", "refs/");
    StripRefsInvertsPrefix("main");
    assert HeadsPrefix + "main" == "refs/heads/main";
  }

  /**
   When the first action the first pass decides on carries a non-empty
   revision branch list, its first entry's name, stripped, is the branch.
   */
  lemma RevisionBranchWins(actions: seq<Action>, i: nat, entries: seq<BranchEntry>)
    requires i < |actions|
    requires actions[i].lastBuiltRevision == Some(Revision(Some(entries))) && |entries| > 0
    requires forall j :: 0 <= j < i ==> FirstPassOn(actions[j]).None?
    ensures ResolveBranch(actions) == Success(StripRefs(entries[0].name.ValueOr(Unknown)))
  {
    assert FirstHitAt(actions, i);
  }

  /** A parameter named `Git_Branch` matches case-insensitively and its value is the branch. */
  lemma GitBranchParameter()
    ensures ResolveBranch([Action(None, Some([Param(Some("Git_Branch"), Some("release/2.0"))]), None, None)])
      == Success("release/2.0")
  {
    assert Lower("Git_Branch") == "git_branch";
    var a := Action(None, Some([Param(Some("Git_Branch"), Some("release/2.0"))]), None, None);
    assert IsBranchParam(a.parameters.value[0]);
    assert FirstHitAt([a], 0);
  }

  /**
   The checks are interleaved per action: an earlier action's branch
   parameter beats a revision block in any later action.
   */
  lemma EarlierParameterBeatsLaterRevision(p: Param, rest: seq<Action>)
    requires IsBranchParam(p)
    ensures ResolveBranch([Action(None, Some([p]), None, None)] + rest) == Success(p.value.ValueOr(Unknown))
  {
    var actions := [Action(None, Some([p]), None, None)] + rest;
    assert actions[0].parameters.value[0] == p;
    assert HasBranchParam(actions[0]);
    assert FirstHitAt(actions, 0);
  }

  /** Actions after the one that decides the first pass do not matter. */
  lemma {:induction false} AppendAfterHit(xs: seq<Action>, ys: seq<Action>)
    requires exists i :: 0 <= i < |xs| && FirstPassOn(xs[i]).Some?
    ensures ResolveBranch(xs + ys) == ResolveBranch(xs)
  {
    assert FirstPass(xs).Some?;
    var i :| FirstHitAt(xs, i) && FirstPass(xs) == FirstPassOn(xs[i]);
    assert forall j :: 0 <= j <= i ==> (xs + ys)[j] == xs[j];
    assert FirstHitAt(xs + ys, i);
  }

  /**
   Actions the first pass skips, tag actions included, cannot pre-empt a later
   first-pass hit: tags are consulted only when the first pass finds nothing.
   */
  lemma {:induction false} PrependSkipped(pre: seq<Action>, actions: seq<Action>)
    requires forall j :: 0 <= j < |pre| ==> FirstPassOn(pre[j]).None?
    requires exists i :: 0 <= i < |actions| && FirstPassOn(actions[i]).Some?
    ensures ResolveBranch(pre + actions) == ResolveBranch(actions)
  {
    assert FirstPass(actions).Some?;
    var i :| FirstHitAt(actions, i) && FirstPass(actions) == FirstPassOn(actions[i]);
    assert forall j :: 0 <= j < |actions| ==> (pre + actions)[|pre| + j] == actions[j];
    assert forall j :: 0 <= j < |pre| ==> (pre + actions)[j] == pre[j];
    assert FirstHitAt(pre + actions, |pre| + i);
  }

  /** With no revision branch, branch parameter or tag action anywhere, the branch is `unknown`. */
  lemma NothingRecognisedIsUnknown(actions: seq<Action>)
    requires forall i :: 0 <= i < |actions| ==>
      !HasRevisionBranch(actions[i]) && !HasBranchParam(actions[i]) && !IsTagAction(actions[i])
    ensures ResolveBranch(actions) == Success(Unknown)
  {
  }
}

=== FILE: emission.dfy ===
/**
 The metrics one processed build produces: the part of
 `JenkinsCollector.process_build` after the build description is fetched.
 Prometheus objects are replaced by an ordered list of abstract events;
 durations stay in integer milliseconds.
 */
module Emission {
  import opened Results
  import opened Branch

  /** Status used when a build or stage reports none. */
  const UnknownStatus := "UNKNOWN"
  /** Name used for a stage that reports none. */
  const UnnamedStage := "Unnamed Stage"

  /** One entry of a build description's `stages` list. */
  datatype Stage = Stage(name: Option<string>, status: Option<string>, durationMillis: Option<int>)

  /** A parsed build description; an absent `stages` or `actions` key reads as an empty list. */
  datatype BuildRecord = BuildRecord(
    status: Option<string>,
    durationMillis: Option<int>,
    stages: seq<Stage>,
    actions: seq<Action>)

  /** One update of the metrics registry. */
  datatype Event =
    | BuildCounted(job: string, status: string, branch: string)
    | BuildDurationObserved(job: string, branch: string, millis: int)
    | StageDurationObserved(job: string, stage: string, branch: string, status: string, millis: int)
    | LastProcessedSet(job: string, build: int)

  /** The observation for one stage, with its defaults applied. */
  function StageEvent(job: string, branch: string, s: Stage): Event {
    StageDurationObserved(job, s.name.ValueOr(UnnamedStage), branch, s.status.ValueOr(UnknownStatus), s.durationMillis.ValueOr(0))
  }

  /** The stage observations, in stage order. */
  function StageEvents(job: string, branch: string, stages: seq<Stage>): (r: seq<Event>)
    ensures |r| == |stages|
    ensures forall i :: 0 <= i < |stages| ==> r[i] == StageEvent(job, branch, stages[i])
  {
    if |stages| == 0 then []
    else [StageEvent(job, branch, stages[0])] + StageEvents(job, branch, stages[1..])
  }

  /**
   The events of one build, or the error branch resolution raised, in which
   case nothing is emitted: the counter increment, the build-duration
   observation, one observation per stage, and the gauge set to the build number.
   */
  function EmitBuild(job: string, number: int, rec: BuildRecord): (r: Result<seq<Event>, BranchError>)
    ensures r.Failure? <==> ResolveBranch(rec.actions).Failure?
    ensures r.Success? ==>
      var branch := ResolveBranch(rec.actions).value;
      var evs := r.value;
      && |evs| == |rec.stages| + 3
      && evs[0] == BuildCounted(job, rec.status.ValueOr(UnknownStatus), branch)
      && evs[1] == BuildDurationObserved(job, branch, rec.durationMillis.ValueOr(0))
      && (forall i :: 0 <= i < |rec.stages| ==>
            evs[i + 2] == StageDurationObserved(job, rec.stages[i].name.ValueOr(UnnamedStage), branch,
                                                rec.stages[i].status.ValueOr(UnknownStatus),
                                                rec.stages[i].durationMillis.ValueOr(0)))
      && evs[|evs| - 1] == LastProcessedSet(job, number)
  {
    match ResolveBranch(rec.actions)
    case Failure(e) => Failure(e)
    case Success(branch) =>
      var status := rec.status.ValueOr(UnknownStatus);
      Success([BuildCounted(job, status, branch), BuildDurationObserved(job, branch, rec.durationMillis.ValueOr(0))]
              + StageEvents(job, branch, rec.stages)
              + [LastProcessedSet(job, number)])
  }

  /** The number of counter increments. */
  function CountBuilds(evs: seq<Event>): nat {
    if |evs| == 0 then 0
    else (if evs[0].BuildCounted? then 1 else 0) + CountBuilds(evs[1..])
  }

  /** The number of build-duration observations. */
  function CountDurations(evs: seq<Event>): nat {
    if |evs| == 0 then 0
    else (if evs[0].BuildDurationObserved? then 1 else 0) + CountDurations(evs[1..])
  }

  /** The numbers the gauge of `job` is set to, in order. */
  function GaugesOf(evs: seq<Event>, job: string): seq<int> {
    if |evs| == 0 then []
    else (if evs[0].LastProcessedSet? && evs[0].job == job then [evs[0].build] else []) + GaugesOf(evs[1..], job)
  }

  /** Counting increments distributes over concatenation. */
  lemma {:induction false} CountBuildsAppend(a: seq<Event>, b: seq<Event>)
    ensures CountBuilds(a + b) == CountBuilds(a) + CountBuilds(b)
  {
    if |a| == 0 {
      assert a + b == b;
    } else {
      assert (a + b)[0] == a[0];
      assert (a + b)[1..] == a[1..] + b;
      CountBuildsAppend(a[1..], b);
    }
  }

  /** Counting duration observations distributes over concatenation. */
  lemma {:induction false} CountDurationsAppend(a: seq<Event>, b: seq<Event>)
    ensures CountDurations(a + b) == CountDurations(a) + CountDurations(b)
  {
    if |a| == 0 {
      assert a + b == b;
    } else {
      assert (a + b)[0] == a[0];
      assert (a + b)[1..] == a[1..] + b;
      CountDurationsAppend(a[1..], b);
    }
  }

  /** Gauge sets of a concatenation are those of each part, in order. */
  lemma {:induction false} GaugesAppend(a: seq<Event>, b: seq<Event>, job: string)
    ensures GaugesOf(a + b, job) == GaugesOf(a, job) + GaugesOf(b, job)
  {
    if |a| == 0 {
      assert a + b == b;
    } else {
      assert (a + b)[0] == a[0];
      assert (a + b)[1..] == a[1..] + b;
      GaugesAppend(a[1..], b, job);
    }
  }

  /** All three tallies distribute over concatenation. */
  lemma CountsAppend(a: seq<Event>, b: seq<Event>, job: string)
    ensures CountBuilds(a + b) == CountBuilds(a) + CountBuilds(b)
    ensures CountDurations(a + b) == CountDurations(a) + CountDurations(b)
    ensures GaugesOf(a + b, job) == GaugesOf(a, job) + GaugesOf(b, job)
  {
    CountBuildsAppend(a, b);
    CountDurationsAppend(a, b);
    GaugesAppend(a, b, job);
  }

  /** Stage observations are neither counter increments, duration observations nor gauge sets. */
  lemma {:induction false} StageEventsCountNothing(job: string, branch: string, stages: seq<Stage>, other: string)
    ensures CountBuilds(StageEvents(job, branch, stages)) == 0
    ensures CountDurations(StageEvents(job, branch, stages)) == 0
    ensures GaugesOf(StageEvents(job, branch, stages), other) == []
  {
    if |stages| > 0 {
      StageEventsCountNothing(job, branch, stages[1..], other);
      assert StageEvents(job, branch, stages)[1..] == StageEvents(job, branch, stages[1..]);
    }
  }

  /**
   A processed build counts exactly once, is timed exactly once, and sets
   its own job's gauge exactly once, to its number.
   */
  lemma EmitBuildOnce(job: string, number: int, rec: BuildRecord, other: string)
    requires EmitBuild(job, number, rec).Success?
    ensures var evs := EmitBuild(job, number, rec).value;
      && CountBuilds(evs) == 1
      && CountDurations(evs) == 1
      && GaugesOf(evs, other) == (if other == job then [number] else [])
  {
    var branch := ResolveBranch(rec.actions).value;
    var head := [BuildCounted(job, rec.status.ValueOr(UnknownStatus), branch),
                 BuildDurationObserved(job, branch, rec.durationMillis.ValueOr(0))];
    var stages := StageEvents(job, branch, rec.stages);
    var tail := [LastProcessedSet(job, number)];
    assert EmitBuild(job, number, rec).value == head + stages + tail;
    CountsAppend(head, stages, other);
    CountsAppend(head + stages, tail, other);
    StageEventsCountNothing(job, branch, rec.stages, other);
    assert head[1..][1..] == [];
    assert tail[1..] == [];
  }

  /**
   Every event of a processed build carries its job label, and the gauge set
   is the last event and the only one, to the build's own number.
   */
  lemma EmitBuildShape(job: string, number: int, rec: BuildRecord)
    requires EmitBuild(job, number, rec).Success?
    ensures var evs := EmitBuild(job, number, rec).value;
      && (forall k :: 0 <= k < |evs| ==> evs[k].job == job)
      && (forall k :: 0 <= k < |evs| && evs[k].LastProcessedSet? ==> k == |evs| - 1 && evs[k].build == number)
  {
    var evs := EmitBuild(job, number, rec).value;
    forall k | 0 <= k < |evs|
      ensures evs[k].job == job
      ensures evs[k].LastProcessedSet? ==> k == |evs| - 1 && evs[k].build == number
    {
      if 2 <= k < |evs| - 1 {
        assert evs[(k - 2) + 2].StageDurationObserved?;
      }
    }
  }

  /** The events of build `number` of `job`, as far as tallies and labels go. */
  ghost predicate BuildEventsOf(evs: seq<Event>, job: string, number: int) {
    && CountBuilds(evs) == 1
    && CountDurations(evs) == 1
    && (forall other :: GaugesOf(evs, other) == if other == job then [number] else [])
    && (forall k :: 0 <= k < |evs| ==> evs[k].job == job)
    && (forall k :: 0 <= k < |evs| && evs[k].LastProcessedSet? ==> k == |evs| - 1 && evs[k].build == number)
  }

  /** The gauge values one build's events give any job. */
  lemma BuildGauges(evs: seq<Event>, job: string, number: int, other: string)
    requires BuildEventsOf(evs, job, number)
    ensures other == job ==> GaugesOf(evs, other) == [number]
    ensures other != job ==> GaugesOf(evs, other) == []
  {
  }

  /** What a successful emission amounts to. */
  lemma EmitBuildEvents(job: string, number: int, rec: BuildRecord)
    requires EmitBuild(job, number, rec).Success?
    ensures BuildEventsOf(EmitBuild(job, number, rec).value, job, number)
  {
    EmitBuildOnce(job, number, rec, job);
    forall other {
      EmitBuildOnce(job, number, rec, other);
    }
    EmitBuildShape(job, number, rec);
  }
}

=== FILE: results.dfy ===
/**
 Partial values of the collector model: a JSON key that may be missing, and
 a computation that may raise.
 */
module Results {

  /** `Some(v)` for a key present with value `v`, `None` for a missing key or a raising read. */
  datatype Option<T> = None | Some(value: T) {

    /** Python's `d.get(key, default)`: the value when the key is present, `default` otherwise. */
    function ValueOr(default: T): T {
      if Some? then value else default
    }
  }

  /** A branch name or other value, or the exception that replaced it. */
  datatype Result<T, E> = Success(value: T) | Failure(error: E)
}

=== FILE: text.dfy ===
/**
 String helpers with the semantics of the Python `str` methods the collector
 calls: `replace` and `lower`. `Split` and `Join` are not called by the
 collector; they are the reference definition that characterises the
 replace-all scan through Python's identity `s.replace(p, r) == r.join(s.split(p))`.
 */
module Text {

  /** `p` occurs in `s` starting at index `i`. */
  predicate OccursAt(s: string, p: string, i: int) {
    0 <= i && i + |p| <= |s| && s[i..i + |p|] == p
  }

  /** `p` occurs somewhere in `s`. */
  predicate Occurs(s: string, p: string) {
    exists i :: 0 <= i <= |s| && OccursAt(s, p, i)
  }

  /**
   Python's `s.replace(pat, rep)` for a non-empty pattern: one left-to-right
   scan that replaces every non-overlapping occurrence and never rescans the
   text it has just produced.
   */
  function ReplaceAll(s: string, pat: string, rep: string): string
    requires |pat| > 0
    decreases |s|
  {
    if |s| == 0 then []
    else if pat <= s then rep + ReplaceAll(s[|pat|..], pat, rep)
    else [s[0]] + ReplaceAll(s[1..], pat, rep)
  }

  /** Python's `s.split(sep)` for a non-empty separator. */
  function Split(s: string, sep: string): (parts: seq<string>)
    requires |sep| > 0
    ensures |parts| >= 1
    decreases |s|
  {
    if |s| == 0 then [[]]
    else if sep <= s then [[]] + Split(s[|sep|..], sep)
    else
      var rest := Split(s[1..], sep);
      [[s[0]] + rest[0]] + rest[1..]
  }

  /** Python's `sep.join(parts)` for a non-empty list of parts. */
  function Join(parts: seq<string>, sep: string): string
    requires |parts| >= 1
  {
    if |parts| == 1 then parts[0] else parts[0] + sep + Join(parts[1..], sep)
  }

  /** Joining a part in front of a non-empty list puts one separator between them. */
  lemma JoinCons(part: string, parts: seq<string>, sep: string)
    requires |parts| >= 1
    ensures Join([part] + parts, sep) == part + sep + Join(parts, sep)
  {
    assert ([part] + parts)[1..] == parts;
  }

  /** Prefixing a character to the first part prefixes it to the joined text. */
  lemma {:induction false} JoinExtendFirst(c: char, parts: seq<string>, sep: string)
    requires |parts| >= 1
    ensures Join([[c] + parts[0]] + parts[1..], sep) == [c] + Join(parts, sep)
  {
    if |parts| > 1 {
      JoinCons([c] + parts[0], parts[1..], sep);
      JoinCons(parts[0], parts[1..], sep);
      assert parts == [parts[0]] + parts[1..];
    }
  }

  /** Python's identity `s.replace(p, r) == r.join(s.split(p))`. */
  lemma {:induction false} ReplaceIsJoinOfSplit(s: string, pat: string, rep: string)
    requires |pat| > 0
    ensures ReplaceAll(s, pat, rep) == Join(Split(s, pat), rep)
    decreases |s|
  {
    if |s| == 0 {
    } else if pat <= s {
      var tail := s[|pat|..];
      ReplaceIsJoinOfSplit(tail, pat, rep);
      JoinCons([], Split(tail, pat), rep);
    } else {
      var rest := Split(s[1..], pat);
      ReplaceIsJoinOfSplit(s[1..], pat, rep);
      JoinExtendFirst(s[0], rest, rep);
    }
  }

  /** An occurrence in the tail of a text is an occurrence in the text. */
  lemma OccursInTail(s: string, p: string)
    requires |s| > 0
    ensures Occurs(s[1..], p) ==> Occurs(s, p)
  {
    if Occurs(s[1..], p) {
      var i :| 0 <= i <= |s[1..]| && OccursAt(s[1..], p, i);
      assert s[1..][i..i + |p|] == s[i + 1..i + 1 + |p|];
      assert OccursAt(s, p, i + 1);
    }
  }

  /** Text in which the pattern does not occur is returned unchanged. */
  lemma {:induction false} ReplaceAbsent(s: string, pat: string, rep: string)
    requires |pat| > 0
    requires !Occurs(s, pat)
    ensures ReplaceAll(s, pat, rep) == s
    decreases |s|
  {
    if |s| == 0 {
    } else {
      assert pat <= s ==> OccursAt(s, pat, 0);
      OccursInTail(s, pat);
      ReplaceAbsent(s[1..], pat, rep);
      assert s == [s[0]] + s[1..];
    }
  }

  /** A leading occurrence of the pattern is replaced and the scan resumes after it. */
  lemma ReplaceLeading(pat: string, rest: string, rep: string)
    requires |pat| > 0
    ensures ReplaceAll(pat + rest, pat, rep) == rep + ReplaceAll(rest, pat, rep)
  {
    assert pat <= pat + rest;
    assert (pat + rest)[|pat|..] == rest;
  }

  /** ASCII lower-casing of one character. */
  function LowerChar(c: char): char {
    if 'A' <= c <= 'Z' then (c as int - 'A' as int + 'a' as int) as char else c
  }

  /** Python's `s.lower()` restricted to ASCII letters. */
  function Lower(s: string): string {
    seq(|s|, i requires 0 <= i < |s| => LowerChar(s[i]))
  }
}

=== FILE: watermark.dfy ===
/**
 The per-job watermark and the polling cycle: `_initialize_state`,
 `collect`, and the call of `process_build` from it.

 `get_job_info` is a partial map from job name to job info (an absent name
 stands for any exception it raises) and the build-description fetch is an
 oracle; one call of `collect` is one application of `Cycle`.
 */
module Watermark {
  import opened Results
  import opened Emission

  /**
   A `lastCompletedBuild` or `lastBuild` field of the job info: absent, JSON
   null, or an object that may carry a `number`.
   */
  datatype BuildRef = Missing | Null | Ref(number: Option<int>)

  /** The two fields of the job info the collector reads. */
  datatype JobInfo = JobInfo(lastCompletedBuild: BuildRef, lastBuild: BuildRef)

  /**
   `info.get(key, {}).get('number', 0)`: an absent field or number reads as 0;
   a null field makes `.get` raise, which is `None`.
   */
  function RefNumber(r: BuildRef): Option<int> {
    match r
    case Missing => Some(0)
    case Null => None
    case Ref(n) => Some(n.ValueOr(0))
  }

  /** The watermark store, read through `Get` like a `defaultdict(int)`. */
  type Watermarks = map<string, int>

  /** A job never written reads as 0. */
  function Get(w: Watermarks, job: string): int {
    if job in w then w[job] else 0
  }

  /**
   The starting watermark one job info yields: the last completed build's
   number, or the last build's number when that is 0; `None` when a read raises.
   */
  function InitialWatermark(info: JobInfo): Option<int> {
    match RefNumber(info.lastCompletedBuild)
    case None => None
    case Some(n) => if n != 0 then Some(n) else RefNumber(info.lastBuild)
  }

  /** The watermark one job is initialised to, or `None` when its initialisation raises. */
  function InitialFor(lookup: map<string, JobInfo>, job: string): Option<int> {
    if job in lookup then InitialWatermark(lookup[job]) else None
  }

  /** The loop of `_initialize_state` from a given store. */
  function InitFrom(jobs: seq<string>, lookup: map<string, JobInfo>, w: Watermarks): (r: Watermarks)
    ensures forall j :: Get(r, j) ==
                        if j in jobs && InitialFor(lookup, j).Some? then InitialFor(lookup, j).value else Get(w, j)
    decreases |jobs|
  {
    if |jobs| == 0 then w
    else
      var w' := match InitialFor(lookup, jobs[0])
        case Some(n) => w[jobs[0] := n]
        case None => w;
      var r := InitFrom(jobs[1..], lookup, w');
      assert forall j :: j in jobs <==> j == jobs[0] || j in jobs[1..];
      r
  }

  /** `_initialize_state` on a fresh store. */
  function InitWatermarks(jobs: seq<string>, lookup: map<string, JobInfo>): Watermarks {
    InitFrom(jobs, lookup, map[])
  }

  /** What the build-description fetch returns. */
  datatype Fetch = Fetched(record: BuildRecord) | FetchFailed

  /** The fetch oracle, by job name and build number. */
  type Fetcher = (string, int) -> Fetch

  /** `process_build`: the events of one build, or `None` when fetching or processing raises. */
  function ProcessBuild(fetch: Fetcher, job: string, n: int): Option<seq<Event>> {
    match fetch(job, n)
    case FetchFailed => None
    case Fetched(rec) =>
      match EmitBuild(job, n, rec)
      case Success(evs) => Some(evs)
      case Failure(_) => None
  }

  /** The outcome of one job's batch: its new watermark, the builds attempted and the events emitted. */
  datatype Batch = Batch(watermark: int, attempted: seq<int>, events: seq<Event>)

  /** The outcome of `process_build` for each build number of one job. */
  type Processor = int -> Option<seq<Event>>

  /** `process_build` for one job, as a function of the build number. */
  function ProcessorFor(fetch: Fetcher, job: string): Processor {
    n => ProcessBuild(fetch, job, n)
  }

  /**
   The inner loop of `collect`: builds `w + 1 .. last` are attempted in
   ascending order, each success advancing the watermark to its number, and
   the first failure ending the batch.
   */
  function RunBatch(process: Processor, w: int, last: int): (b: Batch)
    ensures last <= w ==> b == Batch(w, [], [])
    ensures w <= b.watermark
    ensures w < last ==> b.watermark <= last
    ensures forall i :: 0 <= i < |b.attempted| ==> b.attempted[i] == w + 1 + i
    ensures forall n :: w < n <= b.watermark ==> process(n).Some?
    ensures b.watermark < last ==>
      |b.attempted| == b.watermark - w + 1 && process(b.watermark + 1).None?
    ensures last <= b.watermark ==> |b.attempted| == b.watermark - w
    decreases last - w
  {
    if last <= w then Batch(w, [], [])
    else
      match process(w + 1)
      case None => Batch(w, [w + 1], [])
      case Some(evs) =>
        var rest := RunBatch(process, w + 1, last);
        Batch(rest.watermark, [w + 1] + rest.attempted, evs + rest.events)
  }

  /** Everything one cycle leaves behind: the store, the `process_build` calls made, the events. */
  datatype CycleResult = CycleResult(watermarks: Watermarks, attempts: seq<(string, int)>, events: seq<Event>)

  /** Build numbers paired with their job. */
  function Labelled(job: string, ns: seq<int>): seq<(string, int)> {
    seq(|ns|, i requires 0 <= i < |ns| => (job, ns[i]))
  }

  /** The last completed build number `collect` reads for a job, or `None` when reading it raises. */
  function ReportedLast(lookup: map<string, JobInfo>, job: string): Option<int> {
    if job in lookup then RefNumber(lookup[job].lastCompletedBuild) else None
  }

  /** One iteration of the outer loop of `collect`. */
  function CollectJob(job: string, lookup: map<string, JobInfo>, fetch: Fetcher, acc: CycleResult): CycleResult {
    match ReportedLast(lookup, job)
    case None => acc
    case Some(last) =>
      var w := Get(acc.watermarks, job);
      if last <= w then acc
      else
        var b := RunBatch(ProcessorFor(fetch, job), w, last);
        CycleResult(acc.watermarks[job := b.watermark], acc.attempts + Labelled(job, b.attempted), acc.events + b.events)
  }

  /** The outer loop of `collect`, over the jobs in configured order. */
  function CycleFrom(jobs: seq<string>, lookup: map<string, JobInfo>, fetch: Fetcher, acc: CycleResult): CycleResult
    decreases |jobs|
  {
    if |jobs| == 0 then acc
    else CycleFrom(jobs[1..], lookup, fetch, CollectJob(jobs[0], lookup, fetch, acc))
  }

  /** One call of `collect` on store `w`. */
  function Cycle(jobs: seq<string>, lookup: map<string, JobInfo>, fetch: Fetcher, w: Watermarks): CycleResult {
    CycleFrom(jobs, lookup, fetch, CycleResult(w, [], []))
  }

  /**
   The inner loop of `collect` as the source writes it: a `for` over the new
   build numbers that breaks at the first failure.
   */
  method RunBatchLoop(process: Processor, start: int, last: int)
    returns (watermark: int, tried: seq<int>, emitted: seq<Event>)
    ensures Batch(watermark, tried, emitted) == RunBatch(process, start, last)
  {
    watermark, tried, emitted := start, [], [];
    var n := start + 1;
    while n <= last
      invariant start <= watermark && n == watermark + 1
      invariant RunBatch(process, start, last).watermark == RunBatch(process, watermark, last).watermark
      invariant RunBatch(process, start, last).attempted == tried + RunBatch(process, watermark, last).attempted
      invariant RunBatch(process, start, last).events == emitted + RunBatch(process, watermark, last).events
      decreases last - n
    {
      var outcome := process(n);
      RunBatchStep(process, watermark, last);
      if outcome.None? {
        tried := tried + [n];
        break;
      }
      ghost var rest := RunBatch(process, n, last);
      assert tried + ([n] + rest.attempted) == (tried + [n]) + rest.attempted;
      assert emitted + (outcome.value + rest.events) == (emitted + outcome.value) + rest.events;
      tried := tried + [n];
      emitted := emitted + outcome.value;
      watermark := n;
      n := n + 1;
    }
  }

  /** One step of a batch that has a build left to attempt. */
  lemma RunBatchStep(process: Processor, w: int, last: int)
    requires w < last
    ensures process(w + 1).None? ==> RunBatch(process, w, last) == Batch(w, [w + 1], [])
    ensures process(w + 1).Some? ==>
      var rest := RunBatch(process, w + 1, last);
      RunBatch(process, w, last) == Batch(rest.watermark, [w + 1] + rest.attempted, process(w + 1).value + rest.events)
  {
  }

  /**
   `collect` as the source writes it: a loop over the jobs that skips a job
   whose lookup raises or that has nothing new, and runs its batch otherwise.
   */
  method Collect(jobs: seq<string>, lookup: map<string, JobInfo>, fetch: Fetcher, w0: Watermarks)
    returns (w: Watermarks, attempts: seq<(string, int)>, events: seq<Event>)
    ensures CycleResult(w, attempts, events) == Cycle(jobs, lookup, fetch, w0)
  {
    w, attempts, events := w0, [], [];
    var i := 0;
    while i < |jobs|
      invariant 0 <= i <= |jobs|
      invariant CycleFrom(jobs[i..], lookup, fetch, CycleResult(w, attempts, events)) == Cycle(jobs, lookup, fetch, w0)
    {
      var job := jobs[i];
      assert jobs[i..][1..] == jobs[i + 1..];
      var reported := ReportedLast(lookup, job);
      if reported.Some? && Get(w, job) < reported.value {
        var watermark, tried, emitted := RunBatchLoop(ProcessorFor(fetch, job), Get(w, job), reported.value);
        w := w[job := watermark];
        attempts := attempts + Labelled(job, tried);
        events := events + emitted;
      }
      i := i + 1;
    }
  }
}

=== FILE: watermark_properties.dfy ===
/** Properties of watermark initialisation, of one job's batch and of whole polling cycles. */
module WatermarkProperties {
  import opened Results
  import opened Emission
  import opened Branch
  import opened Watermark

  /** The consecutive numbers `lo .. hi - 1`. */
  function Range(lo: int, hi: int): (r: seq<int>)
    ensures |r| == if hi <= lo then 0 else hi - lo
    ensures forall i :: 0 <= i < |r| ==> r[i] == lo + i
    decreases hi - lo
  {
    if hi <= lo then [] else [lo] + Range(lo + 1, hi)
  }

  /** Gauge sets for one job only ever move forward: no build number is reported twice. */
  ghost predicate GaugesIncrease(evs: seq<Event>) {
    forall k1, k2 ::
      (0 <= k1 < k2 < |evs| && evs[k1].LastProcessedSet? && evs[k2].LastProcessedSet? && evs[k1].job == evs[k2].job)
      ==> evs[k1].build < evs[k2].build
  }

  /** Every gauge set in `evs` is at or below its job's watermark. */
  ghost predicate GaugesCovered(evs: seq<Event>, w: Watermarks) {
    forall k :: 0 <= k < |evs| && evs[k].LastProcessedSet? ==> evs[k].build <= Get(w, evs[k].job)
  }

  /**
   Initialisation: a listed job whose info reads cleanly starts at its last
   completed build number, or at its last build number when that is 0 or
   absent; a job whose lookup or read raises, or that is not listed, starts at 0.
   */
  lemma InitialisationRules(jobs: seq<string>, lookup: map<string, JobInfo>, j: string, c: int, b: int)
    ensures var w := InitWatermarks(jobs, lookup);
      && (j !in jobs || j !in lookup ==> Get(w, j) == 0)
      && (j in jobs && j in lookup && lookup[j].lastCompletedBuild == Ref(Some(c)) && c != 0 ==> Get(w, j) == c)
      && ((j in jobs && j in lookup && lookup[j].lastCompletedBuild in {Missing, Ref(None), Ref(Some(0))}
           && lookup[j].lastBuild == Ref(Some(b))) ==> Get(w, j) == b)
      && (j in jobs && j in lookup && lookup[j].lastCompletedBuild == Null ==> Get(w, j) == 0)
      && ((j in jobs && j in lookup && lookup[j].lastCompletedBuild in {Missing, Ref(None), Ref(Some(0))}
           && lookup[j].lastBuild in {Missing, Null, Ref(None)}) ==> Get(w, j) == 0)
  {
  }

  /** Every successful outcome of `p` is the events of that build of `job`. */
  ghost predicate OutcomesOf(p: Processor, job: string) {
    forall n :: p(n).Some? ==> BuildEventsOf(p(n).value, job, n)
  }

  /** `process_build` only ever succeeds with the events of the build it was asked for. */
  lemma ProcessorOutcomes(fetch: Fetcher, job: string)
    ensures OutcomesOf(ProcessorFor(fetch, job), job)
  {
    forall n | ProcessorFor(fetch, job)(n).Some?
      ensures BuildEventsOf(ProcessorFor(fetch, job)(n).value, job, n)
    {
      EmitBuildEvents(job, n, fetch(job, n).record);
    }
  }

  /**
   A batch counts and times exactly one build per build the watermark
   advanced over.
   */
  lemma {:induction false} BatchCounts(p: Processor, job: string, w: int, last: int)
    requires OutcomesOf(p, job)
    ensures var b := RunBatch(p, w, last);
      && CountBuilds(b.events) == b.watermark - w
      && CountDurations(b.events) == b.watermark - w
    decreases last - w
  {
    if w < last {
      RunBatchStep(p, w, last);
      if p(w + 1).Some? {
        var evs := p(w + 1).value;
        var rest := RunBatch(p, w + 1, last);
        BatchCounts(p, job, w + 1, last);
        assert BuildEventsOf(evs, job, w + 1);
        CountBuildsAppend(evs, rest.events);
        CountDurationsAppend(evs, rest.events);
      }
    }
  }

  /** A batch sets its own job's gauge to exactly the build numbers the watermark advanced over, in order. */
  lemma {:induction false} BatchOwnGauges(p: Processor, job: string, w: int, last: int)
    requires OutcomesOf(p, job)
    ensures var b := RunBatch(p, w, last);
      GaugesOf(b.events, job) == Range(w + 1, b.watermark + 1)
    decreases last - w
  {
    if w < last {
      RunBatchStep(p, w, last);
      if p(w + 1).Some? {
        var evs := p(w + 1).value;
        var rest := RunBatch(p, w + 1, last);
        BatchOwnGauges(p, job, w + 1, last);
        BuildGauges(evs, job, w + 1, job);
        GaugesAppend(evs, rest.events, job);
        assert Range(w + 1, rest.watermark + 1) == [w + 1] + Range(w + 2, rest.watermark + 1);
      }
    }
  }

  /** A batch sets no other job's gauge. */
  lemma {:induction false} BatchOtherGauges(p: Processor, job: string, w: int, last: int, other: string)
    requires OutcomesOf(p, job)
    requires other != job
    ensures GaugesOf(RunBatch(p, w, last).events, other) == []
    decreases last - w
  {
    if w < last {
      RunBatchStep(p, w, last);
      if p(w + 1).Some? {
        var evs := p(w + 1).value;
        var rest := RunBatch(p, w + 1, last);
        BatchOtherGauges(p, job, w + 1, last, other);
        BuildGauges(evs, job, w + 1, other);
        GaugesAppend(evs, rest.events, other);
      }
    }
  }

  /**
   A batch sets its job's gauge to exactly the build numbers the watermark
   advanced over, in ascending order, and no other job's gauge.
   */
  lemma BatchGaugeValues(p: Processor, job: string, w: int, last: int, other: string)
    requires OutcomesOf(p, job)
    ensures var b := RunBatch(p, w, last);
      GaugesOf(b.events, other) == (if other == job then Range(w + 1, b.watermark + 1) else [])
  {
    if other == job {
      BatchOwnGauges(p, job, w, last);
    } else {
      BatchOtherGauges(p, job, w, last, other);
    }
  }

  /**
   The events of a batch: one counter increment and one duration observation
   per build the watermark advanced over, and the job's gauge set to exactly
   those build numbers, in ascending order.
   */
  lemma BatchEvents(p: Processor, job: string, w: int, last: int, other: string)
    requires OutcomesOf(p, job)
    ensures var b := RunBatch(p, w, last);
      && CountBuilds(b.events) == b.watermark - w
      && CountDurations(b.events) == b.watermark - w
      && GaugesOf(b.events, other) == (if other == job then Range(w + 1, b.watermark + 1) else [])
  {
    BatchCounts(p, job, w, last);
    BatchGaugeValues(p, job, w, last, other);
  }

  /**
   The events of a batch are labelled with its job, and its gauge sets lie
   strictly above the old watermark, at or below the new one, and strictly increase.
   */
  lemma {:induction false} BatchGauges(p: Processor, job: string, w: int, last: int)
    requires OutcomesOf(p, job)
    ensures var b := RunBatch(p, w, last);
      && (forall k :: 0 <= k < |b.events| ==> b.events[k].job == job)
      && (forall k :: 0 <= k < |b.events| && b.events[k].LastProcessedSet? ==>
            w < b.events[k].build <= b.watermark)
      && GaugesIncrease(b.events)
    decreases last - w
  {
    if w < last && p(w + 1).Some? {
      var evs := p(w + 1).value;
      var rest := RunBatch(p, w + 1, last);
      BatchGauges(p, job, w + 1, last);
      assert BuildEventsOf(evs, job, w + 1);
      var all := evs + rest.events;
      assert RunBatch(p, w, last).events == all;
      assert forall k :: 0 <= k < |evs| ==> all[k] == evs[k];
      assert forall k :: |evs| <= k < |all| ==> all[k] == rest.events[k - |evs|];
    }
  }

  /** Batches agree when their processors agree on every build number. */
  lemma {:induction false} BatchDependsOnOutcomesOnly(p: Processor, q: Processor, w: int, last: int)
    requires forall n :: p(n) == q(n)
    ensures RunBatch(p, w, last) == RunBatch(q, w, last)
    decreases last - w
  {
    if w < last {
      BatchDependsOnOutcomesOnly(p, q, w + 1, last);
    }
  }

  /** The gauge invariant of the collector: gauges move forward and never pass the watermark. */
  ghost predicate GaugeInvariant(r: CycleResult) {
    GaugesIncrease(r.events) && GaugesCovered(r.events, r.watermarks)
  }

  /**
   One iteration of the outer loop changes only its job's watermark, never
   lowers it and never lifts it past the reported last completed build; with
   nothing new, or a lookup that raises, it changes nothing at all.
   */
  lemma CollectJobWatermarks(job: string, lookup: map<string, JobInfo>, fetch: Fetcher, acc: CycleResult)
    ensures var r := CollectJob(job, lookup, fetch, acc);
      && (forall x :: x != job ==> Get(r.watermarks, x) == Get(acc.watermarks, x))
      && Get(acc.watermarks, job) <= Get(r.watermarks, job)
      && (Get(r.watermarks, job) == Get(acc.watermarks, job)
          || (ReportedLast(lookup, job).Some? && Get(r.watermarks, job) <= ReportedLast(lookup, job).value))
      && ((ReportedLast(lookup, job).None? || ReportedLast(lookup, job).value <= Get(acc.watermarks, job)) ==> r == acc)
  {
  }

  /** Indexing into the part appended to a sequence. */
  lemma AppendedPart<T>(a: seq<T>, b: seq<T>)
    ensures (a + b)[|a|..] == b
    ensures forall k :: |a| <= k < |a + b| ==> (a + b)[k] == b[k - |a|]
  {
  }

  /**
   Appending a batch of `job` run from its current watermark `w` adds only
   attempts of that job above `w`, and events of that job whose gauge values
   lie above `w`, at or below the batch's watermark, and strictly increase.
   */
  lemma AppendBatchFacts(acc: CycleResult, job: string, w: int, b: Batch)
    requires w <= b.watermark
    requires forall k :: 0 <= k < |b.events| ==> b.events[k].job == job
    requires forall k :: 0 <= k < |b.events| && b.events[k].LastProcessedSet? ==> w < b.events[k].build <= b.watermark
    requires GaugesIncrease(b.events)
    requires forall i :: 0 <= i < |b.attempted| ==> w < b.attempted[i]
    ensures var r := CycleResult(acc.watermarks[job := b.watermark], acc.attempts + Labelled(job, b.attempted), acc.events + b.events);
      && acc.events <= r.events && acc.attempts <= r.attempts
      && (forall k :: |acc.events| <= k < |r.events| ==> r.events[k].job == job)
      && (forall k :: |acc.events| <= k < |r.events| && r.events[k].LastProcessedSet? ==>
            w < r.events[k].build <= Get(r.watermarks, job))
      && GaugesIncrease(r.events[|acc.events|..])
      && (forall k :: |acc.attempts| <= k < |r.attempts| ==> r.attempts[k].0 == job && w < r.attempts[k].1)
  {
    AppendedPart(acc.events, b.events);
    AppendedPart(acc.attempts, Labelled(job, b.attempted));
  }

  /**
   One iteration of the outer loop only appends: attempts of its own job
   above the old watermark, and events of its own job whose gauge values lie
   above the old watermark, at or below the new one, and strictly increase.
   */
  lemma CollectJobAppends(job: string, lookup: map<string, JobInfo>, fetch: Fetcher, acc: CycleResult)
    ensures var r := CollectJob(job, lookup, fetch, acc);
      && acc.events <= r.events && acc.attempts <= r.attempts
      && (forall k :: |acc.events| <= k < |r.events| ==> r.events[k].job == job)
      && (forall k :: |acc.events| <= k < |r.events| && r.events[k].LastProcessedSet? ==>
            Get(acc.watermarks, job) < r.events[k].build <= Get(r.watermarks, job))
      && GaugesIncrease(r.events[|acc.events|..])
      && (forall k :: |acc.attempts| <= k < |r.attempts| ==>
            r.attempts[k].0 == job && Get(acc.watermarks, job) < r.attempts[k].1)
  {
    var r := CollectJob(job, lookup, fetch, acc);
    if ReportedLast(lookup, job).Some? && Get(acc.watermarks, job) < ReportedLast(lookup, job).value {
      var w := Get(acc.watermarks, job);
      var last := ReportedLast(lookup, job).value;
      var p := ProcessorFor(fetch, job);
      var b := RunBatch(p, w, last);
      assert r == CycleResult(acc.watermarks[job := b.watermark], acc.attempts + Labelled(job, b.attempted), acc.events + b.events);
      ProcessorOutcomes(fetch, job);
      BatchGauges(p, job, w, last);
      AppendBatchFacts(acc, job, w, b);
    } else {
      assert r == acc;
      assert r.events[|acc.events|..] == [];
    }
  }

  /** Both halves of what one iteration of the outer loop does. */
  lemma CollectJobFacts(job: string, lookup: map<string, JobInfo>, fetch: Fetcher, acc: CycleResult)
    ensures var r := CollectJob(job, lookup, fetch, acc);
      && acc.events <= r.events && acc.attempts <= r.attempts
      && (forall x :: x != job ==> Get(r.watermarks, x) == Get(acc.watermarks, x))
      && Get(acc.watermarks, job) <= Get(r.watermarks, job)
      && (Get(r.watermarks, job) == Get(acc.watermarks, job)
          || (ReportedLast(lookup, job).Some? && Get(r.watermarks, job) <= ReportedLast(lookup, job).value))
      && (forall k :: |acc.events| <= k < |r.events| ==> r.events[k].job == job)
      && (forall k :: |acc.events| <= k < |r.events| && r.events[k].LastProcessedSet? ==>
            Get(acc.watermarks, job) < r.events[k].build <= Get(r.watermarks, job))
      && GaugesIncrease(r.events[|acc.events|..])
      && (forall k :: |acc.attempts| <= k < |r.attempts| ==>
            r.attempts[k].0 == job && Get(acc.watermarks, job) < r.attempts[k].1)
      && ((ReportedLast(lookup, job).None? || ReportedLast(lookup, job).value <= Get(acc.watermarks, job)) ==> r == acc)
  {
    CollectJobWatermarks(job, lookup, fetch, acc);
    CollectJobAppends(job, lookup, fetch, acc);
  }

  /**
   Appending events keeps the gauge invariant when no watermark goes down and
   the appended gauge values of each job lie above its old watermark, at or
   below its new one, and strictly increase.
   */
  lemma AppendKeepsGaugeInvariant(acc: CycleResult, r: CycleResult)
    requires GaugeInvariant(acc)
    requires acc.events <= r.events
    requires forall x :: Get(acc.watermarks, x) <= Get(r.watermarks, x)
    requires forall k :: |acc.events| <= k < |r.events| && r.events[k].LastProcessedSet? ==>
      Get(acc.watermarks, r.events[k].job) < r.events[k].build <= Get(r.watermarks, r.events[k].job)
    requires GaugesIncrease(r.events[|acc.events|..])
    ensures GaugeInvariant(r)
  {
    var n := |acc.events|;
    assert forall k :: 0 <= k < n ==> r.events[k] == acc.events[k];
    assert forall k :: n <= k < |r.events| ==> r.events[k] == r.events[n..][k - n];
    forall k1, k2 | 0 <= k1 < k2 < |r.events| && r.events[k1].LastProcessedSet? && r.events[k2].LastProcessedSet?
        && r.events[k1].job == r.events[k2].job
      ensures r.events[k1].build < r.events[k2].build
    {
      if k2 < n {
        assert acc.events[k1].build < acc.events[k2].build;
      } else if k1 < n {
        assert r.events[k1].build <= Get(acc.watermarks, r.events[k1].job);
      } else {
        assert r.events[n..][k1 - n].build < r.events[n..][k2 - n].build;
      }
    }
  }

  /** One iteration of the outer loop keeps the gauge invariant. */
  lemma CollectJobKeepsGaugeInvariant(job: string, lookup: map<string, JobInfo>, fetch: Fetcher, acc: CycleResult)
    requires GaugeInvariant(acc)
    ensures GaugeInvariant(CollectJob(job, lookup, fetch, acc))
  {
    var r := CollectJob(job, lookup, fetch, acc);
    CollectJobWatermarks(job, lookup, fetch, acc);
    CollectJobAppends(job, lookup, fetch, acc);
    AppendKeepsGaugeInvariant(acc, r);
  }

  /**
   Over a whole cycle each job's watermark never decreases, only moves to at
   most the last completed build number reported for it, and stays put for a
   job that is not listed; the attempts and events are appended.
   */
  lemma {:induction false} CycleMonotone(jobs: seq<string>, lookup: map<string, JobInfo>, fetch: Fetcher, acc: CycleResult)
    ensures var r := CycleFrom(jobs, lookup, fetch, acc);
      && acc.events <= r.events && acc.attempts <= r.attempts
      && (forall x :: Get(acc.watermarks, x) <= Get(r.watermarks, x))
      && (forall x :: Get(r.watermarks, x) == Get(acc.watermarks, x)
            || (ReportedLast(lookup, x).Some? && Get(r.watermarks, x) <= ReportedLast(lookup, x).value))
      && (forall x :: x !in jobs ==> Get(r.watermarks, x) == Get(acc.watermarks, x))
    decreases |jobs|
  {
    if |jobs| > 0 {
      var acc1 := CollectJob(jobs[0], lookup, fetch, acc);
      CollectJobFacts(jobs[0], lookup, fetch, acc);
      CycleMonotone(jobs[1..], lookup, fetch, acc1);
      assert forall x :: x in jobs[1..] ==> x in jobs;
    }
  }

  /**
   A job that has nothing new, or whose lookup raises, keeps its watermark,
   has no build attempted and no metric emitted for it.
   */
  lemma {:induction false} CycleNothingNew(jobs: seq<string>, lookup: map<string, JobInfo>, fetch: Fetcher, acc: CycleResult, j: string)
    requires ReportedLast(lookup, j).None? || ReportedLast(lookup, j).value <= Get(acc.watermarks, j)
    ensures var r := CycleFrom(jobs, lookup, fetch, acc);
      && Get(r.watermarks, j) == Get(acc.watermarks, j)
      && (forall k :: |acc.events| <= k < |r.events| ==> r.events[k].job != j)
      && (forall k :: |acc.attempts| <= k < |r.attempts| ==> r.attempts[k].0 != j)
    decreases |jobs|
  {
    if |jobs| > 0 {
      var acc1 := CollectJob(jobs[0], lookup, fetch, acc);
      CollectJobFacts(jobs[0], lookup, fetch, acc);
      CycleNothingNew(jobs[1..], lookup, fetch, acc1, j);
      CycleMonotone(jobs[1..], lookup, fetch, acc1);
    }
  }

  /** No build at or below the watermark a cycle starts from is attempted. */
  lemma {:induction false} CycleAttemptsAboveWatermark(jobs: seq<string>, lookup: map<string, JobInfo>, fetch: Fetcher, acc: CycleResult)
    ensures var r := CycleFrom(jobs, lookup, fetch, acc);
      forall k :: |acc.attempts| <= k < |r.attempts| ==> Get(acc.watermarks, r.attempts[k].0) < r.attempts[k].1
    decreases |jobs|
  {
    if |jobs| > 0 {
      var acc1 := CollectJob(jobs[0], lookup, fetch, acc);
      CollectJobFacts(jobs[0], lookup, fetch, acc);
      CycleAttemptsAboveWatermark(jobs[1..], lookup, fetch, acc1);
      CycleMonotone(jobs[1..], lookup, fetch, acc1);
    }
  }

  /**
   Failure isolation: a job's new watermark depends only on its own lookup,
   its own builds' outcomes and its own old watermark, so any other job's
   failures leave it exactly as if they had not happened.
   */
  lemma {:induction false} CycleIsolation(jobs: seq<string>, lookup: map<string, JobInfo>, lookup': map<string, JobInfo>,
                                          fetch: Fetcher, fetch': Fetcher, acc: CycleResult, acc': CycleResult, j: string)
    requires ReportedLast(lookup, j) == ReportedLast(lookup', j)
    requires forall n :: fetch(j, n) == fetch'(j, n)
    requires Get(acc.watermarks, j) == Get(acc'.watermarks, j)
    ensures Get(CycleFrom(jobs, lookup, fetch, acc).watermarks, j) == Get(CycleFrom(jobs, lookup', fetch', acc').watermarks, j)
    decreases |jobs|
  {
    if |jobs| > 0 {
      var acc1 := CollectJob(jobs[0], lookup, fetch, acc);
      var acc1' := CollectJob(jobs[0], lookup', fetch', acc');
      CollectJobFacts(jobs[0], lookup, fetch, acc);
      CollectJobFacts(jobs[0], lookup', fetch', acc');
      if jobs[0] == j {
        BatchDependsOnOutcomesOnly(ProcessorFor(fetch, j), ProcessorFor(fetch', j), Get(acc.watermarks, j),
                                   ReportedLast(lookup, j).ValueOr(0));
      }
      CycleIsolation(jobs[1..], lookup, lookup', fetch, fetch', acc1, acc1', j);
    }
  }

  /** A whole cycle keeps the gauge invariant. */
  lemma {:induction false} CycleKeepsGaugeInvariant(jobs: seq<string>, lookup: map<string, JobInfo>, fetch: Fetcher, acc: CycleResult)
    requires GaugeInvariant(acc)
    ensures GaugeInvariant(CycleFrom(jobs, lookup, fetch, acc))
    decreases |jobs|
  {
    if |jobs| > 0 {
      CollectJobKeepsGaugeInvariant(jobs[0], lookup, fetch, acc);
      CycleKeepsGaugeInvariant(jobs[1..], lookup, fetch, CollectJob(jobs[0], lookup, fetch, acc));
    }
  }

  /** What the CI server answers during one cycle: job infos and build descriptions. */
  datatype Poll = Poll(lookup: map<string, JobInfo>, fetch: Fetcher)

  /** Successive cycles of one process lifetime, accumulating attempts and events. */
  function RunFrom(jobs: seq<string>, polls: seq<Poll>, acc: CycleResult): CycleResult
    decreases |polls|
  {
    if |polls| == 0 then acc
    else RunFrom(jobs, polls[1..], CycleFrom(jobs, polls[0].lookup, polls[0].fetch, acc))
  }

  /** A process lifetime: initialisation, then one cycle per poll. */
  function Run(jobs: seq<string>, startup: map<string, JobInfo>, polls: seq<Poll>): CycleResult {
    RunFrom(jobs, polls, CycleResult(InitWatermarks(jobs, startup), [], []))
  }

  /**
   At most once per process lifetime: over any number of cycles, the gauge
   of a job is set to strictly increasing build numbers, so the gauge is never
   set twice for one build, and none is past the job's final watermark.
   */
  lemma {:induction false} RunProcessesEachBuildAtMostOnce(jobs: seq<string>, startup: map<string, JobInfo>, polls: seq<Poll>)
    ensures GaugesIncrease(Run(jobs, startup, polls).events)
    ensures GaugesCovered(Run(jobs, startup, polls).events, Run(jobs, startup, polls).watermarks)
  {
    RunKeepsGaugeInvariant(jobs, polls, CycleResult(InitWatermarks(jobs, startup), [], []));
  }

  /** Successive cycles keep the gauge invariant. */
  lemma {:induction false} RunKeepsGaugeInvariant(jobs: seq<string>, polls: seq<Poll>, acc: CycleResult)
    requires GaugeInvariant(acc)
    ensures GaugeInvariant(RunFrom(jobs, polls, acc))
    decreases |polls|
  {
    if |polls| > 0 {
      CycleKeepsGaugeInvariant(jobs, polls[0].lookup, polls[0].fetch, acc);
      RunKeepsGaugeInvariant(jobs, polls[1..], CycleFrom(jobs, polls[0].lookup, polls[0].fetch, acc));
    }
  }

  /**
   When every new build processes successfully, the watermark reaches the
   last completed build, each build is counted and timed once, and the gauge
   ends at that build number.
   */
  lemma BatchAllSucceed(p: Processor, job: string, w: int, last: int)
    requires OutcomesOf(p, job)
    requires w < last
    requires forall n :: w < n <= last ==> p(n).Some?
    ensures var b := RunBatch(p, w, last);
      && b.watermark == last
      && b.attempted == Range(w + 1, last + 1)
      && CountBuilds(b.events) == last - w
      && CountDurations(b.events) == last - w
      && GaugesOf(b.events, job) == Range(w + 1, last + 1)
      && GaugesOf(b.events, job)[last - w - 1] == last
  {
    var b := RunBatch(p, w, last);
    assert w < b.watermark + 1 <= last ==> p(b.watermark + 1).Some?;
    assert b.watermark == last;
    assert b.attempted == Range(w + 1, last + 1);
    BatchEvents(p, job, w, last, job);
  }

  /**
   When a build fails, the builds before it are counted, the watermark stays
   on the last of them, and nothing after the failing build is attempted.
   */
  lemma BatchStopsAtFailure(p: Processor, w: int, last: int, failing: int)
    requires w < failing <= last
    requires forall n :: w < n < failing ==> p(n).Some?
    requires p(failing).None?
    ensures RunBatch(p, w, last).watermark == failing - 1
    ensures RunBatch(p, w, last).attempted == Range(w + 1, failing + 1)
  {
  }

  /**
   Over a cycle, a listed job that has builds above its watermark has its
   next build attempted, whatever other jobs come before it.
   */
  lemma {:induction false} CycleAttemptsNextBuild(jobs: seq<string>, lookup: map<string, JobInfo>, fetch: Fetcher, acc: CycleResult, j: string)
    requires j in jobs
    requires ReportedLast(lookup, j).Some? && Get(acc.watermarks, j) < ReportedLast(lookup, j).value
    ensures (j, Get(acc.watermarks, j) + 1) in CycleFrom(jobs, lookup, fetch, acc).attempts
    decreases |jobs|
  {
    var acc1 := CollectJob(jobs[0], lookup, fetch, acc);
    CycleMonotone(jobs[1..], lookup, fetch, acc1);
    if jobs[0] == j {
      var w := Get(acc.watermarks, j);
      var b := RunBatch(ProcessorFor(fetch, j), w, ReportedLast(lookup, j).value);
      RunBatchStep(ProcessorFor(fetch, j), w, ReportedLast(lookup, j).value);
      assert acc1.attempts == acc.attempts + Labelled(j, b.attempted);
      assert acc1.attempts[|acc.attempts|] == (j, w + 1);
      assert CycleFrom(jobs, lookup, fetch, acc).attempts[|acc.attempts|] == (j, w + 1);
    } else {
      CollectJobFacts(jobs[0], lookup, fetch, acc);
      assert j in jobs[1..];
      CycleAttemptsNextBuild(jobs[1..], lookup, fetch, acc1, j);
      assert acc.attempts <= acc1.attempts;
    }
  }

  /**
   A job at watermark 0 is retried on every cycle: while the lookups report
   no completed build for it nothing changes, and the first cycle whose
   lookup reports one attempts its build 1.
   */
  lemma {:induction false} RetriedLater(jobs: seq<string>, polls: seq<Poll>, acc: CycleResult, j: string)
    requires j in jobs && Get(acc.watermarks, j) == 0 && |polls| > 0
    requires forall q :: 0 <= q < |polls| - 1 ==>
      ReportedLast(polls[q].lookup, j).None? || ReportedLast(polls[q].lookup, j).value <= 0
    requires ReportedLast(polls[|polls| - 1].lookup, j).Some? && ReportedLast(polls[|polls| - 1].lookup, j).value > 0
    ensures (j, 1) in RunFrom(jobs, polls, acc).attempts
    decreases |polls|
  {
    var acc1 := CycleFrom(jobs, polls[0].lookup, polls[0].fetch, acc);
    if |polls| == 1 {
      CycleAttemptsNextBuild(jobs, polls[0].lookup, polls[0].fetch, acc, j);
      assert RunFrom(jobs, polls, acc) == RunFrom(jobs, [], acc1) == acc1;
    } else {
      CycleNothingNew(jobs, polls[0].lookup, polls[0].fetch, acc, j);
      assert forall q :: 0 <= q < |polls[1..]| ==> polls[1..][q] == polls[q + 1];
      RetriedLater(jobs, polls[1..], acc1, j);
    }
  }

  /**
   A job that could not be looked up at startup starts at 0 and is not
   excluded: whichever later cycle is the first whose lookup reports
   completed builds for it, that cycle attempts its build 1, wherever the
   job sits in the configured list.
   */
  lemma MissingJobIsRetried(jobs: seq<string>, startup: map<string, JobInfo>, polls: seq<Poll>, k: int)
    requires 0 <= k < |jobs| && jobs[k] !in startup && |polls| > 0
    requires forall q :: 0 <= q < |polls| - 1 ==>
      ReportedLast(polls[q].lookup, jobs[k]).None? || ReportedLast(polls[q].lookup, jobs[k]).value <= 0
    requires ReportedLast(polls[|polls| - 1].lookup, jobs[k]).Some? && ReportedLast(polls[|polls| - 1].lookup, jobs[k]).value > 0
    ensures var r := Run(jobs, startup, polls);
      exists m :: 0 <= m < |r.attempts| && r.attempts[m] == (jobs[k], 1)
  {
    var w := InitWatermarks(jobs, startup);
    assert InitialFor(startup, jobs[k]).None?;
    assert Get(w, jobs[k]) == Get(map[], jobs[k]) == 0;
    RetriedLater(jobs, polls, CycleResult(w, [], []), jobs[k]);
    var r := Run(jobs, startup, polls);
    assert (jobs[k], 1) in r.attempts;
    var m :| 0 <= m < |r.attempts| && r.attempts[m] == (jobs[k], 1);
  }

  /**
   Two jobs: `A` at watermark 5 with builds up to 7 completed, `B` at
   watermark 10 with nothing newer. One cycle processes builds 6 and 7 of
   `A` only and leaves `A` at 7 and `B` at 10.
   */
  lemma TwoJobScenario()
    ensures var lookup := map["A" := JobInfo(Ref(Some(7)), Missing), "B" := JobInfo(Ref(Some(10)), Missing)];
      var fetch: Fetcher := (job, n) => Fetched(BuildRecord(Some("SUCCESS"), Some(1000), [], []));
      var r := Cycle(["A", "B"], lookup, fetch, map["A" := 5, "B" := 10]);
      && Get(r.watermarks, "A") == 7
      && Get(r.watermarks, "B") == 10
      && r.attempts == [("A", 6), ("A", 7)]
  {
    var lookup := map["A" := JobInfo(Ref(Some(7)), Missing), "B" := JobInfo(Ref(Some(10)), Missing)];
    var fetch: Fetcher := (job, n) => Fetched(BuildRecord(Some("SUCCESS"), Some(1000), [], []));
    var w := map["A" := 5, "B" := 10];
    var p := ProcessorFor(fetch, "A");
    assert ResolveBranch([]) == Success(Branch.Unknown);
    assert p(6).Some? && p(7).Some?;
    BatchAllSucceed(p, "A", 5, 7) by { ProcessorOutcomes(fetch, "A"); }
    var acc1 := CollectJob("A", lookup, fetch, CycleResult(w, [], []));
    assert acc1.attempts == [("A", 6), ("A", 7)];
    assert Get(acc1.watermarks, "B") == 10;
    var acc2 := CollectJob("B", lookup, fetch, acc1);
    assert acc2 == acc1;
    assert ["A", "B"][1..] == ["B"];
    assert ["A", "B"][1..][1..] == [];
  }
}
